=== FILE: README.md ===
# Monte Carlo Tree Search, modelled in Dafny

This project models the generic Monte Carlo Tree Search engine of `mcts.py`.
The engine keeps three tables keyed by game state:

- `Q`, the total reward of each state;
- `N`, its visit count;
- `children`, the successor set recorded when the state is expanded.

It improves these tables one rollout at a time: select a path, expand its last
state, run a random playout from it, and backpropagate the playout's reward
along the path. `choose` then recommends the move with the best mean reward.

The model is functional. The tables are immutable Dafny maps inside a
`Stats<S>` value, and the engine is generic over the state type `S`.

- `Node` (node.dfy) holds the game oracles of the abstract `Node` class as a
  datatype of functions: `find_children`, `find_random_child`, `is_terminal`
  and `reward`. State equality and hashing are Dafny equality on `S`.
- `Reward` (reward.dfy) holds the zero-sum reward arithmetic. `Flip(r, k)` is
  `r` seen from `k` plies away. `Credit` is a reference definition of what
  backpropagation credits each state; it walks the path from the root side.
- `Stats` (stats.dfy) holds the tables. Lookups of `Q` and `N` default to 0,
  as the source's `defaultdict(int)` does. The module also defines the
  invariants the engine keeps:
  - `VisitedKeys`: every expanded state has been visited.
  - `ConsistentWith`: every recorded child set is the game's own.
  - `BoundedTotals`: each state's total reward is between 0 and its visit
    count.
  - `Grows`: recorded child sets never change, and visit counts never
    decrease.
- `Mcts` (mcts.dfy) holds the operations: `Choose`, `Select` with
  `UctSelect`, `Expand`, `Simulate`, `Backpropagate`, and `Rollout`, whose steps after selection form `PlayOut`.
  `Train` runs repeated rollouts: its loop `RunRollouts` takes one
  `NextRollout` step per trace and stops at the first failure.

The source makes arbitrary choices in two places: `set.pop()` and the
tie-break of `max` among equally scored children. Each is a nondeterministic
`:|` choice in a method, so every contract holds for every possible choice.
The UCT rule itself is deterministic in the source: `uct_select` takes the
child of highest score (mcts.py:83-87). The model leaves the score arithmetic
out and so lets `UctSelect` return any recorded child. Its contracts therefore
hold whichever child the score would pick.

The random playout is a given trace: the successive results of
`find_random_child`, starting from the leaf's own random child. The model
does not check that each element of the trace is a child of the one before
it. The source obtains the trace from the game, and no property proved here
depends on where it came from. Only its terminal states and their rewards
matter.

The source relies on one invariant without stating it. The `assert` in
`uct_select` and its divisions need every child of the node to be expanded
and visited. In the model this is a precondition of `UctSelect`. `Select`
reaches `UctSelect` only when all the children are expanded, and the
`VisitedKeys` invariant, which `Rollout` preserves, supplies the visit
counts.

One might expect the root's visit count to be exactly `k` after `k`
rollouts. The code only guarantees at least `k`. Backpropagation adds one
visit per occurrence of a state on the path. In a game whose positions can
recur, the root can appear on the path again. The model follows the code:
`Rollout` and `Train` promise at least one visit per rollout.

They promise exactly one under two conditions. First, the game's moves must
strictly decrease some natural-number rank. Such a rank exists exactly when
no play from any state can go on forever, which rules out cycles and also
infinite acyclic play. Second, the recorded child sets must be the game's own
(`ConsistentWith`). Under the same two conditions, a selection budget above
the root's rank is never used up. So a rollout whose trace reaches a
terminal state always completes.

## Model

| member | source | states |
|---|---|---|
| Mcts.Choose | mcts.py:15-27 | A terminal node gives the `TerminalNode` error, and only a terminal node does. An unexpanded node gives `find_random_child(node)`. An expanded node with an empty child set gives `NoChildren`, which is the error `max` raises on an empty set. Otherwise the result is a recorded child whose mean reward no other child beats. It is never an unvisited child while a visited child exists. |
| Mcts.UctSelect | mcts.py:76-87 | Callable only when every child of the node is expanded and visited and the node itself is visited, which are the conditions the assert, the logarithm and the divisions need. Returns one of the node's recorded children. |
| Mcts.Select | mcts.py:38-50 | The path is non-empty and starts at the root. Every later element is a recorded child of the element before it. The path ends at an unexpanded state or at a state with no recorded children. Every step except possibly the last came from a state whose children are all expanded. The last step may instead add a child that is not yet expanded. It gives up only when a chain of `fuel + 1` states exists from the root, each with a non-empty, fully expanded child set, along which the UCT rule could keep descending. |
| Mcts.DescentBoundedByRank | mcts.py:38-50 | In a game whose moves decrease a rank, and whose recorded children are the game's own, such a chain is at most one longer than the root's rank. |
| Mcts.Expand | mcts.py:53-56 | An already expanded node leaves the statistics unchanged. Otherwise exactly that node's key is added, with the game's children. Other recorded child sets and `Q`/`N` stay unchanged. |
| Mcts.ExpandIdempotent | mcts.py:53-56 | Expanding twice is the same as expanding once. |
| Mcts.Simulate | mcts.py:59-66 | The playout stops at the first terminal state of the walk. It is unfinished exactly when the walk has no terminal state. After an even number of random moves, including none, it returns `1 - reward`; after an odd number it returns `reward`. The result stays in [0,1] whenever that reward does. |
| Mcts.Backpropagate | mcts.py:69-73 | Leaves the recorded child sets untouched. |
| Mcts.BackpropagateCredits | mcts.py:69-73 | Each state gains one visit per occurrence on the path. Its reward gain is `Credit`, which walks the path from the root side. A state gets an `N` or `Q` entry exactly when it already had one or is on the path. |
| Mcts.BackpropagateOffPath | mcts.py:69-73 | A state not on the path keeps its visit count, total reward and `N` entry. |
| Mcts.BackpropagateAtPosition | mcts.py:70-73 | A state occurring once on the path gains one visit and the reward flipped once per step between it and the leaf. |
| Mcts.BackpropagateConsecutiveSumToOne | mcts.py:70-73 | Two consecutive states that each occur once on the path receive rewards that sum to 1. |
| Mcts.BackpropagateKeepsBoundedTotals | mcts.py:69-73 | If the reward is in [0,1], every total reward stays between 0 and its visit count, so every mean reward stays in [0,1]. |
| Mcts.RolloutStatistics | mcts.py:30-35 | Expanding a path's last state and then backpropagating along the path does four things. It keeps every expanded state visited. It only grows the statistics. It adds no key other than the leaf. It raises the root's count by the root's number of occurrences on the path. |
| Mcts.RolloutSound | mcts.py:30-35 | After a rollout, every expanded state is visited, the statistics have only grown, the root has at least one more visit, and consistency with the game is kept. |
| Mcts.RolloutExpandsAtMostOne | mcts.py:30-35 | A rollout adds at most one new key to `children`. |
| Mcts.RolloutKeepsBoundedTotals | mcts.py:30-35 | With a reward in [0,1], mean rewards stay in [0,1] across a rollout. |
| Mcts.SelectionDescendsRank | mcts.py:38-50 | In a game whose moves decrease a rank, and whose recorded children are the game's own, every selected path strictly decreases that rank. |
| Mcts.RolloutVisitsRankedRootOnce | mcts.py:30-35 | In a game whose moves decrease a rank, and whose recorded children are the game's own, a rollout adds exactly one visit to its root. |
| Mcts.CompletedRollout | mcts.py:30-35 | Expanding a selected path's last state and backpropagating the reward of the playout's first terminal state is a rollout. It keeps every expanded state visited, only grows the statistics, expands at most one new state, and gives the root at least one more visit. In a ranked game consistent with its recorded children, it gives exactly one. It preserves consistency and keeps mean rewards in [0,1]. |
| Mcts.PlayOut | mcts.py:32-35 | Once a path is selected, expanding its last state and backpropagating the playout's reward is a rollout, with the same invariants as `CompletedRollout`. It fails only when the walk from the selected leaf along the trace, the leaf included, reaches no terminal state. So a terminal leaf never fails, and the trace then holds no terminal state either. |
| Mcts.Rollout | mcts.py:30-35 | A completed rollout is some possible selection, expanded at its last state and backpropagated with the reward of the playout's first terminal state, inverted after an even number of random moves. It keeps every expanded state visited and only grows the statistics. It expands at most one new state and gives the root at least one more visit, exactly one in a ranked game consistent with its recorded children. It preserves consistency with the game, and it keeps mean rewards in [0,1] when terminal rewards are in [0,1]. A playout failure comes with the selected path (`evidence`) whose leaf-and-trace walk holds no terminal state, so a terminal leaf never fails. A selection failure comes with a descent of `fuel + 1` states, which never exists in a ranked, consistent game with `fuel` above the root's rank. |
| Mcts.Train | mcts.py:30-35 | A completed run is exactly one rollout per trace, in order: each step is a possible selection, expanded and backpropagated with its playout's reward. After `k` completed rollouts the statistics have only grown, every expanded state is visited, and the root has at least `k` more visits. In a ranked game consistent with its recorded children it has exactly `k` more. A failure is that of the first failing rollout, number `failed`. The rollouts over the traces before it form a run that reached `reached`. For a playout failure, `evidence` is a path selectable from `reached` whose walk from its leaf along `traces[failed]` holds no terminal state. For a selection failure, it is a descent of `fuel + 1` states from `reached`. In a ranked, consistent game with `fuel` above the root's rank and a terminal state on every trace, every rollout completes. |
| Mcts.RolloutsStep | mcts.py:30-35 | A run of rollouts over the first `i` traces, followed by a rollout over trace `i`, is a run over the first `i + 1` traces. |
| Mcts.NextRollout | mcts.py:30-35 | One iteration of the training loop: a completed rollout over trace `i`, from the statistics the first `i` rollouts reached, extends that run to `i + 1` traces. A failed one comes with the selected path or the descent it failed on (`FailedFrom`). |
| Mcts.RunRollouts | mcts.py:30-35 | The training loop stops at the first failing rollout. The rollouts before it form a run over exactly those traces, and the failure comes with its selected path or descent. On success, the run covers every trace, and the returned statistics keep every expanded state visited. |
| Mcts.RolloutOfSound | mcts.py:30-35 | Any rollout keeps every expanded state visited, only grows the statistics, and gives the root at least one more visit, exactly one in a ranked, consistent game. It preserves consistency with the game. |
| Mcts.RolloutsSound | mcts.py:30-35 | A run of `k` rollouts keeps every expanded state visited, only grows the statistics, and gives the root at least `k` more visits, exactly `k` in a ranked, consistent game. It preserves consistency with the game. |
| Reward.FlipAlternates | mcts.py:73 | A reward and its value one ply further sum to 1, and flipping the reward first is the same as one ply more. |
| Reward.FlipInUnitInterval | mcts.py:106 | Flipping keeps a reward in [0,1]. |
| Reward.CreditLast | mcts.py:70-73 | The leaf receives the reward itself. The rest of the path is credited as if the leaf's predecessor had received `1 - r`, which is how the loop proceeds. |
| Reward.CreditAbsent | mcts.py:70-73 | A state absent from the path is credited nothing. |
| Reward.CreditAtUniquePosition | mcts.py:70-73 | A state occurring once, at position `i`, receives the reward flipped `|path| - 1 - i` times. |
| Reward.CreditBounds | mcts.py:70-73 | With a reward in [0,1], a state is credited between 0 and its number of occurrences on the path. |
| Stats.Empty | mcts.py:8-11 | A new engine has empty tables and already satisfies the visited-keys and bounded-totals invariants. |

## Left out

- The UCT score arithmetic (`math.log`, `math.sqrt`, the exploration weight) is floating-point numerics. The exploration weight passed to the constructor is therefore not modelled either.
- Mcts.UctSelect: returns any recorded child, not the child of maximal UCT score, because the score arithmetic is left out.
- Mcts.Backpropagate: its own contract states only that recorded child sets are untouched; the visit and reward updates it makes are stated by Mcts.BackpropagateCredits and the lemmas after it, because stating them on the recursive function itself made its proof too costly.
- Mcts.Select: requires every expanded state to be visited, which is the invariant `Rollout` keeps. The source needs it only at the states where it applies the UCT rule.
- Mcts.Choose: returns some child of maximal mean reward, not the first one in the set's iteration order that Python's `max` returns, because set iteration order is not part of the model.
- Randomness is not modelled as a distribution. `set.pop()` and tie-breaks are nondeterministic choices. The random playout is a given trace of `find_random_child` results. `choose`'s fallback calls the `findRandomChild` oracle once.
- Non-termination is not modelled. `Simulate` reports `Unfinished` when the trace holds no terminal state, where the source would keep walking. `Select` takes a bound on its number of UCT steps and reports `None` when the bound is used up, where the source would keep descending in a cyclic game. `Rollout` turns both into an error value.
- `Node.__hash__` and `Node.__eq__` are Dafny equality on the state type. The `ABC` machinery has no counterpart.
- Reading `self.N[n]` on a `defaultdict` inserts a 0 entry. The model does not insert it, because that entry never changes any later lookup.
- `reward()` on a non-terminal state and `find_random_child()` on a terminal state are undefined in the source. The engine never calls them there, so the model does not say what they return.
- Concrete games are not part of this model.
- Rewards are exact real numbers, where the source computes with Python floats. Rounding is not modelled. For instance, `1 - 0.1` is exact here but rounded in the source, and `0.5 + 2**-54` differs from `0.5` here but equals it in floats. The sums-to-one and [0,1] bounds are therefore exact statements about the model. In the source they hold only up to rounding.

=== FILE: mcts.dfy ===
/** The Monte Carlo tree searcher: the select / expand / simulate /
    backpropagate cycle over immutable statistics, and the final move choice.

    Every arbitrary choice of the engine (popping an element of a set, the
    tie-break of `max`) is a nondeterministic `:|` choice, so each contract
    below holds whichever element is chosen. The UCT score is left out, so
    the child the UCT rule takes is such a choice too. */
module Mcts {
  import opened Wrappers
  import opened Node
  import opened Reward
  import opened Stats

  datatype ChooseError =
    | TerminalNode   // a terminal state has no move
    | NoChildren     // an expanded non-terminal state whose recorded child set is empty

  datatype RolloutError =
    | SelectionUnfinished  // the descent used up its budget of UCT steps
    | PlayoutUnfinished    // the random playout trace ended before a terminal state

  /** Outcome of a random playout: the number of random moves taken and the
      reward it yields for the leaf, or `Unfinished` if the trace of random
      moves ran out first. */
  datatype Playout = Finished(steps: nat, value: real) | Unfinished

  /** Score of a child when choosing the final move: its mean reward, or
      `Unvisited`, which ranks below every mean. */
  datatype Score = Unvisited | Mean(value: real)

  /** Strict order on scores. */
  predicate Below(a: Score, b: Score) {
    match (a, b)
    case (Unvisited, Mean(_)) => true
    case (Mean(x), Mean(y)) => x < y
    case _ => false
  }

  function MeanScore<S>(st: Stats<S>, s: S): (score: Score) {
    if st.Visits(s) == 0 then Unvisited else Mean(st.Total(s) / st.Visits(s) as real)
  }

  // ---------------------------------------------------------------- choose

  /** The recommended move from `node`. A terminal node is an error; a node
      never expanded falls back to a random successor; otherwise the result is
      a recorded child of maximal mean reward. */
  method Choose<S(==)>(g: Game<S>, st: Stats<S>, node: S) returns (r: Result<S, ChooseError>)
    ensures r == Err(TerminalNode) <==> g.isTerminal(node)
    ensures !g.isTerminal(node) && node !in st.children ==> r == Ok(g.findRandomChild(node))
    ensures !g.isTerminal(node) && node in st.children ==>
              (r == Err(NoChildren) <==> st.children[node] == {})
    ensures !g.isTerminal(node) && node in st.children && r.Ok? ==>
              && r.value in st.children[node]
              && (forall c :: c in st.children[node] ==> !Below(MeanScore(st, r.value), MeanScore(st, c)))
    ensures !g.isTerminal(node) && node in st.children && r.Ok? ==>
              ((exists c :: c in st.children[node] && st.Visits(c) > 0) ==> st.Visits(r.value) > 0)
  {
    if g.isTerminal(node) {
      return Err(TerminalNode);
    }
    if node !in st.children {
      return Ok(g.findRandomChild(node));
    }
    var candidates := st.children[node];
    if candidates == {} {
      return Err(NoChildren);
    }
    var best :| best in candidates;
    var rest := candidates - {best};
    while rest != {}
      invariant rest <= candidates && best in candidates
      invariant forall c :: c in candidates && c !in rest ==> !Below(MeanScore(st, best), MeanScore(st, c))
      decreases rest
    {
      var c :| c in rest;
      if Below(MeanScore(st, best), MeanScore(st, c)) {
        best := c;
      }
      rest := rest - {c};
    }
    return Ok(best);
  }

  // ---------------------------------------------------------------- select

  /** A state at which the descent stops: not expanded, or expanded with no
      recorded children. */
  predicate IsLeaf<S>(st: Stats<S>, s: S) {
    s !in st.children || st.children[s] == {}
  }

  /** `path` is a descent the selection phase may produce from `root`: it
      starts at `root`, every later element is a recorded child of the one
      before it, it ends at a leaf, and every step except possibly the last
      was taken from a state all of whose children are already expanded; the
      last step may instead pick a child that is not yet expanded. */
  ghost predicate IsSelection<S>(st: Stats<S>, root: S, path: seq<S>) {
    && |path| >= 1
    && path[0] == root
    && (forall i :: 0 <= i < |path| - 1 ==> path[i] in st.children && path[i + 1] in st.children[path[i]])
    && (forall i :: 0 <= i < |path| - 1 ==>
          (forall c :: c in st.children[path[i]] ==> c in st.children)
          || (i == |path| - 2 && path[i + 1] !in st.children))
    && IsLeaf(st, path[|path| - 1])
  }

  /** `path` is a run of UCT steps from `root`: every state on it is expanded,
      has recorded children, and has all of them expanded, so the UCT rule
      applies there; each later state is a recorded child of the one before. */
  ghost predicate IsDescent<S>(st: Stats<S>, root: S, path: seq<S>) {
    && |path| >= 1
    && path[0] == root
    && (forall i :: 0 <= i < |path| ==>
          && path[i] in st.children && st.children[path[i]] != {}
          && (forall c :: c in st.children[path[i]] ==> c in st.children))
    && (forall i :: 0 <= i < |path| - 1 ==> path[i + 1] in st.children[path[i]])
  }

  /** The UCT choice among the children of `node`. The score arithmetic is not
      modelled: the result is any recorded child. The preconditions are those
      the UCT formula needs: every child expanded and visited, and `node`
      visited so that its logarithm is defined. */
  method UctSelect<S(==)>(st: Stats<S>, node: S) returns (c: S)
    requires node in st.children && st.children[node] != {}
    requires st.Visits(node) >= 1
    requires forall d :: d in st.children[node] ==> d in st.children && st.Visits(d) >= 1
    ensures c in st.children[node]
  {
    c :| c in st.children[node];
  }

  /** The selection phase: descends from `root` by the UCT rule until it
      reaches a leaf or a state with an unexpanded child, which it appends.
      `fuel` bounds the number of UCT steps; `None` means it was used up, which
      happens only when the UCT rule applies at `fuel + 1` successive states. */
  method Select<S(==)>(st: Stats<S>, root: S, fuel: nat) returns (r: Option<seq<S>>)
    requires st.VisitedKeys()
    ensures r.Some? ==> IsSelection(st, root, r.value)
    ensures r.Some? ==> |r.value| <= fuel + 2
    ensures r.None? ==> exists path :: |path| == fuel + 1 && IsDescent(st, root, path)
  {
    var path := [root];
    var node := root;
    var budget := fuel;
    while true
      invariant |path| >= 1 && path[0] == root && node == path[|path| - 1]
      invariant |path| + budget == fuel + 1
      invariant forall i :: 0 <= i < |path| - 1 ==>
                  && path[i] in st.children && st.children[path[i]] != {}
                  && path[i + 1] in st.children[path[i]]
                  && (forall c :: c in st.children[path[i]] ==> c in st.children)
      decreases budget
    {
      if node !in st.children || st.children[node] == {} {
        return Some(path);
      }
      var unexplored := set c | c in st.children[node] && c !in st.children;
      if unexplored != {} {
        var c :| c in unexplored;
        return Some(path + [c]);
      }
      forall d | d in st.children[node]
        ensures d in st.children
      {
        assert d !in unexplored;
      }
      if budget == 0 {
        assert IsDescent(st, root, path);
        return None;
      }
      node := UctSelect(st, node);
      path := path + [node];
      budget := budget - 1;
    }
  }

  // ---------------------------------------------------------------- expand

  /** Records the children of `node` the first time it is expanded; an
      already expanded node is left as it is. */
  function Expand<S(==)>(g: Game<S>, st: Stats<S>, node: S): (st': Stats<S>)
    ensures node in st.children ==> st' == st
    ensures st'.children.Keys == st.children.Keys + {node}
    ensures node !in st.children ==> st'.children[node] == g.findChildren(node)
    ensures forall s :: s in st.children ==> st'.children[s] == st.children[s]
    ensures st'.q == st.q && st'.n == st.n
  {
    if node in st.children then st
    else st.(children := st.children[node := g.findChildren(node)])
  }

  /** Expanding twice is expanding once. */
  lemma ExpandIdempotent<S>(g: Game<S>, st: Stats<S>, node: S)
    ensures Expand(g, Expand(g, st, node), node) == Expand(g, st, node)
  {
  }

  // ---------------------------------------------------------------- simulate

  /** The states of a playout: the leaf followed by the successive random moves. */
  function Walk<S>(leaf: S, trace: seq<S>): (walk: seq<S>) {
    [leaf] + trace
  }

  /** The random playout from `leaf`. `trace` holds the successive results of
      the game's random-child oracle. The playout stops at the first terminal
      state; its reward is inverted after an even number of random moves
      (including none, when the leaf itself is terminal) and kept after an odd
      number. */
  method Simulate<S>(g: Game<S>, leaf: S, trace: seq<S>) returns (p: Playout)
    ensures p.Unfinished? <==> forall j :: 0 <= j < |Walk(leaf, trace)| ==> !g.isTerminal(Walk(leaf, trace)[j])
    ensures p.Finished? ==>
              && p.steps <= |trace|
              && g.isTerminal(Walk(leaf, trace)[p.steps])
              && (forall j :: 0 <= j < p.steps ==> !g.isTerminal(Walk(leaf, trace)[j]))
    ensures p.Finished? && p.steps % 2 == 0 ==> p.value == 1.0 - g.reward(Walk(leaf, trace)[p.steps])
    ensures p.Finished? && p.steps % 2 == 1 ==> p.value == g.reward(Walk(leaf, trace)[p.steps])
    ensures p.Finished? && 0.0 <= g.reward(Walk(leaf, trace)[p.steps]) <= 1.0 ==> 0.0 <= p.value <= 1.0
    ensures p.Finished? ==> FirstTerminalAt(g, Walk(leaf, trace), p.steps)
    ensures p.Finished? ==> p.value == PlayoutReward(g, Walk(leaf, trace), p.steps)
  {
    var node := leaf;
    var invert := true;
    var i := 0;
    while true
      invariant 0 <= i <= |trace|
      invariant node == Walk(leaf, trace)[i]
      invariant invert <==> i % 2 == 0
      invariant forall j :: 0 <= j < i ==> !g.isTerminal(Walk(leaf, trace)[j])
      decreases |trace| - i
    {
      if g.isTerminal(node) {
        var reward := g.reward(node);
        return Finished(i, if invert then 1.0 - reward else reward);
      }
      if i == |trace| {
        return Unfinished;
      }
      node := trace[i];
      invert := !invert;
      i := i + 1;
    }
  }

  // ---------------------------------------------------------------- backpropagate

  /** Credits one visit and `reward` to `s`. */
  function Visit<S(==)>(st: Stats<S>, s: S, reward: real): (after: Stats<S>) {
    st.(n := st.n[s := st.Visits(s) + 1], q := st.q[s := st.Total(s) + reward])
  }

  /** Walks `path` from its last element to its first, crediting each state
      with one visit and the current reward, and flipping the reward between
      consecutive states. What each state gains is stated by
      `BackpropagateCredits`. */
  function Backpropagate<S(==)>(st: Stats<S>, path: seq<S>, reward: real): (st': Stats<S>)
    ensures st'.children == st.children
    decreases |path|
  {
    if |path| == 0 then st
    else Backpropagate(Visit(st, path[|path| - 1], reward), path[..|path| - 1], 1.0 - reward)
  }

  /** Each state gains one visit per occurrence on the path and its `Credit`
      of reward: the leaf the reward itself, its predecessor one minus it, and
      so on alternately up the path. A state off the path keeps its entries. */
  lemma {:induction false} BackpropagateCredits<S>(st: Stats<S>, path: seq<S>, reward: real, s: S)
    ensures var st' := Backpropagate(st, path, reward);
            && st'.Visits(s) == st.Visits(s) + multiset(path)[s]
            && st'.Total(s) == st.Total(s) + Credit(path, reward, s)
            && (s in st'.n <==> s in st.n || s in path)
            && (s in st'.q <==> s in st.q || s in path)
    decreases |path|
  {
    if |path| > 0 {
      var leaf := path[|path| - 1];
      var rest := path[..|path| - 1];
      var visited := Visit(st, leaf, reward);
      BackpropagateCredits(visited, rest, 1.0 - reward, s);
      assert path == rest + [leaf];
      assert multiset(path) == multiset(rest) + multiset{leaf};
      CreditLast(path, reward, s);
    }
  }

  /** A state not on the path keeps its visit count and total reward. */
  lemma BackpropagateOffPath<S>(st: Stats<S>, path: seq<S>, reward: real, s: S)
    requires s !in path
    ensures Backpropagate(st, path, reward).Visits(s) == st.Visits(s)
    ensures Backpropagate(st, path, reward).Total(s) == st.Total(s)
    ensures (s in Backpropagate(st, path, reward).n) == (s in st.n)
  {
    BackpropagateCredits(st, path, reward, s);
    CreditAbsent(path, reward, s);
  }

  /** A state occurring once on the path, at position `i`, is credited the
      reward flipped once per step between it and the leaf. */
  lemma BackpropagateAtPosition<S>(st: Stats<S>, path: seq<S>, reward: real, i: nat)
    requires i < |path| && multiset(path)[path[i]] == 1
    ensures Backpropagate(st, path, reward).Total(path[i]) == st.Total(path[i]) + Flip(reward, |path| - 1 - i)
    ensures Backpropagate(st, path, reward).Visits(path[i]) == st.Visits(path[i]) + 1
  {
    BackpropagateCredits(st, path, reward, path[i]);
    CreditAtUniquePosition(path, reward, i);
  }

  /** Consecutive states of a path without repetitions are credited rewards
      summing to one: what one player gains, the other loses. */
  lemma BackpropagateConsecutiveSumToOne<S>(st: Stats<S>, path: seq<S>, reward: real, i: nat)
    requires i + 1 < |path|
    requires multiset(path)[path[i]] == 1 && multiset(path)[path[i + 1]] == 1
    ensures var st' := Backpropagate(st, path, reward);
            (st'.Total(path[i]) - st.Total(path[i])) + (st'.Total(path[i + 1]) - st.Total(path[i + 1])) == 1.0
  {
    var k := |path| - 2 - i;
    BackpropagateAtPosition(st, path, reward, i);
    BackpropagateAtPosition(st, path, reward, i + 1);
    assert |path| - 1 - i == k + 1 && |path| - 1 - (i + 1) == k;
    FlipAlternates(reward, k);
  }

  /** With a reward in [0,1], every credit is in [0,1] per visit, so mean
      rewards stay in [0,1]. */
  lemma BackpropagateKeepsBoundedTotals<S>(st: Stats<S>, path: seq<S>, reward: real)
    requires st.BoundedTotals()
    requires 0.0 <= reward <= 1.0
    ensures Backpropagate(st, path, reward).BoundedTotals()
  {
    var st' := Backpropagate(st, path, reward);
    forall s | s in st'.q
      ensures 0.0 <= st'.q[s] <= st'.Visits(s) as real
    {
      BackpropagateCredits(st, path, reward, s);
      CreditBounds(path, reward, s);
      assert st'.Total(s) == st'.q[s];
    }
  }

  // ---------------------------------------------------------------- rollout

  /** A path along which `rank` strictly decreases visits its first state once. */
  lemma {:induction false} DescendingPathVisitsFirstOnce<S>(path: seq<S>, rank: S -> nat)
    requires |path| >= 1
    requires forall i :: 0 <= i < |path| - 1 ==> rank(path[i + 1]) < rank(path[i])
    ensures multiset(path)[path[0]] == 1
  {
    var j := 1;
    while j < |path|
      invariant 1 <= j <= |path|
      invariant forall k :: 1 <= k < j ==> rank(path[k]) < rank(path[0])
    {
      if j > 1 {
        assert rank(path[j - 1]) < rank(path[0]);
      }
      j := j + 1;
    }
    assert path == [path[0]] + path[1..];
    assert path[0] !in path[1..];
    assert multiset(path) == multiset{path[0]} + multiset(path[1..]);
  }

  /** Expanding the last state of a path and backpropagating along it keeps
      every expanded state visited and only grows the statistics. */
  lemma RolloutStatistics<S>(g: Game<S>, st: Stats<S>, path: seq<S>, reward: real)
    requires |path| >= 1 && st.VisitedKeys()
    ensures var st' := Backpropagate(Expand(g, st, path[|path| - 1]), path, reward);
            && st'.VisitedKeys() && Grows(st, st')
            && st'.children.Keys - st.children.Keys <= {path[|path| - 1]}
            && st'.Visits(path[0]) == st.Visits(path[0]) + multiset(path)[path[0]]
            && (st.ConsistentWith(g) ==> st'.ConsistentWith(g))
  {
    var leaf := path[|path| - 1];
    var expanded := Expand(g, st, leaf);
    var st' := Backpropagate(expanded, path, reward);
    forall s
      ensures st'.Visits(s) == st.Visits(s) + multiset(path)[s]
    {
      BackpropagateCredits(expanded, path, reward, s);
    }
    assert leaf in multiset(path);
  }

  /** In a game whose moves descend a rank, and whose recorded children are
      the game's own, a selected path descends the rank too. */
  lemma SelectionDescendsRank<S(!new)>(g: Game<S>, st: Stats<S>, root: S, path: seq<S>, rank: S -> nat)
    requires IsSelection(st, root, path)
    requires st.ConsistentWith(g) && Ranked(g, rank)
    ensures forall i :: 0 <= i < |path| - 1 ==> rank(path[i + 1]) < rank(path[i])
  {
    forall i | 0 <= i < |path| - 1
      ensures rank(path[i + 1]) < rank(path[i])
    {
      assert path[i + 1] in g.findChildren(path[i]);
    }
  }

  /** In a game whose moves descend a rank, and whose recorded children are
      the game's own, a run of UCT steps from `root`
      is at most `rank(root) + 1` states long, so a descent budget above
      `rank(root)` is never used up. */
  lemma {:induction false} DescentBoundedByRank<S(!new)>(g: Game<S>, st: Stats<S>, root: S, path: seq<S>, rank: S -> nat)
    requires IsDescent(st, root, path)
    ensures st.ConsistentWith(g) && Ranked(g, rank) ==> |path| <= rank(root) + 1
  {
    if st.ConsistentWith(g) && Ranked(g, rank) {
      var j := 0;
      while j < |path| - 1
        invariant 0 <= j <= |path| - 1
        invariant rank(path[j]) + j <= rank(root)
      {
        assert path[j + 1] in g.findChildren(path[j]);
        j := j + 1;
      }
    }
  }

  /** Some selection from `root` ends at a leaf from which the walk along
      `trace`, the leaf included, reaches no terminal state. */
  ghost predicate PlayoutCanFail<S(!new)>(g: Game<S>, st: Stats<S>, root: S, trace: seq<S>) {
    exists path :: IsSelection(st, root, path) && !HasTerminal(g, Walk(path[|path| - 1], trace))
  }

  /** Some state of `trace` is terminal. */
  ghost predicate HasTerminal<S>(g: Game<S>, trace: seq<S>) {
    exists j :: 0 <= j < |trace| && g.isTerminal(trace[j])
  }

  /** The first terminal state of `walk` is at index `k`. */
  ghost predicate FirstTerminalAt<S>(g: Game<S>, walk: seq<S>, k: nat) {
    && k < |walk|
    && g.isTerminal(walk[k])
    && (forall j :: 0 <= j < k ==> !g.isTerminal(walk[j]))
  }

  /** `after` is what one rollout from `root` makes of `st`: some path the
      selection phase may produce, expanded at its last state and credited
      with the reward of the playout along `trace` from that state. */
  ghost predicate IsRolloutOf<S(!new)>(g: Game<S>, st: Stats<S>, root: S, trace: seq<S>, after: Stats<S>) {
    exists path: seq<S>, k: nat ::
      && IsSelection(st, root, path)
      && FirstTerminalAt(g, Walk(path[|path| - 1], trace), k)
      && after == PlayoutUpdate(g, st, path, trace, k)
  }

  /** The reward a playout whose first terminal state is at index `k`
      yields for the leaf: inverted after an even number of random moves,
      kept after an odd number. */
  function PlayoutReward<S>(g: Game<S>, walk: seq<S>, k: nat): (v: real)
    requires k < |walk|
  {
    Flip(1.0 - g.reward(walk[k]), k)
  }

  /** The statistics after backpropagating along `path` the reward of the
      playout along `trace` that first ends at index `k`. */
  ghost function PlayoutUpdate<S>(g: Game<S>, st: Stats<S>, path: seq<S>, trace: seq<S>, k: nat): (after: Stats<S>)
    requires |path| >= 1 && k <= |trace|
  {
    Update(g, st, path, PlayoutReward(g, Walk(path[|path| - 1], trace), k))
  }

  /** A selected path and a finished playout make a rollout. */
  lemma RolloutWitness<S(!new)>(g: Game<S>, st: Stats<S>, root: S, path: seq<S>, trace: seq<S>, k: nat)
    requires IsSelection(st, root, path)
    requires FirstTerminalAt(g, Walk(path[|path| - 1], trace), k)
    ensures IsRolloutOf(g, st, root, trace, PlayoutUpdate(g, st, path, trace, k))
  {
  }

  /** The statistics a completed rollout leaves: the last state of the
      selected path expanded, then the playout reward backpropagated along it. */
  function Update<S(==)>(g: Game<S>, st: Stats<S>, path: seq<S>, reward: real): (after: Stats<S>)
    requires |path| >= 1
  {
    Backpropagate(Expand(g, st, path[|path| - 1]), path, reward)
  }

  /** A completed rollout keeps every expanded state visited, only grows
      the statistics, and visits the root at least once more. */
  lemma RolloutSound<S>(g: Game<S>, st: Stats<S>, root: S, path: seq<S>, reward: real)
    requires IsSelection(st, root, path) && st.VisitedKeys()
    ensures Update(g, st, path, reward).VisitedKeys()
    ensures Grows(st, Update(g, st, path, reward))
    ensures Update(g, st, path, reward).Visits(root) >= st.Visits(root) + 1
    ensures st.ConsistentWith(g) ==> Update(g, st, path, reward).ConsistentWith(g)
  {
    RolloutStatistics(g, st, path, reward);
  }

  /** A rollout expands at most one new state: the last of its path. */
  lemma RolloutExpandsAtMostOne<S>(g: Game<S>, st: Stats<S>, path: seq<S>, reward: real)
    requires |path| >= 1
    ensures |Update(g, st, path, reward).children.Keys - st.children.Keys| <= 1
  {
    var leaf := path[|path| - 1];
    var added := Update(g, st, path, reward).children.Keys - st.children.Keys;
    assert added <= {leaf};
    if added != {} {
      assert added == {leaf};
    }
  }

  /** With rewards in [0,1], mean rewards stay in [0,1] across a rollout. */
  lemma RolloutKeepsBoundedTotals<S>(g: Game<S>, st: Stats<S>, path: seq<S>, reward: real)
    requires |path| >= 1 && st.BoundedTotals() && 0.0 <= reward <= 1.0
    ensures Update(g, st, path, reward).BoundedTotals()
  {
    var expanded := Expand(g, st, path[|path| - 1]);
    assert expanded.BoundedTotals();
    BackpropagateKeepsBoundedTotals(expanded, path, reward);
  }

  /** In a game whose moves descend a rank, and whose recorded children are
      the game's own, a rollout visits its root exactly once. */
  lemma RolloutVisitsRankedRootOnce<S(!new)>(g: Game<S>, st: Stats<S>, root: S, path: seq<S>, reward: real, rank: S -> nat)
    requires IsSelection(st, root, path)
    requires st.ConsistentWith(g) && Ranked(g, rank)
    ensures Update(g, st, path, reward).Visits(root) == st.Visits(root) + 1
  {
    SelectionDescendsRank(g, st, root, path, rank);
    DescendingPathVisitsFirstOnce(path, rank);
    BackpropagateCredits(Expand(g, st, path[|path| - 1]), path, reward, root);
  }

  /** Everything a completed rollout promises, for the path it selected and
      the index of the playout's first terminal state. */
  lemma CompletedRollout<S(!new)>(g: Game<S>, st: Stats<S>, root: S, path: seq<S>, trace: seq<S>, k: nat, after: Stats<S>, rank: S -> nat)
    requires IsSelection(st, root, path) && st.VisitedKeys()
    requires FirstTerminalAt(g, Walk(path[|path| - 1], trace), k)
    requires after == PlayoutUpdate(g, st, path, trace, k)
    ensures IsRolloutOf(g, st, root, trace, after)
    ensures after.VisitedKeys() && Grows(st, after)
    ensures |after.children.Keys - st.children.Keys| <= 1
    ensures after.Visits(root) >= st.Visits(root) + 1
    ensures st.ConsistentWith(g) ==> after.ConsistentWith(g)
    ensures st.BoundedTotals() && RewardsInUnitInterval(g) ==> after.BoundedTotals()
    ensures st.ConsistentWith(g) && Ranked(g, rank) ==> after.Visits(root) == st.Visits(root) + 1
  {
    var walk := Walk(path[|path| - 1], trace);
    var v := PlayoutReward(g, walk, k);
    assert after == Update(g, st, path, v);
    RolloutWitness(g, st, root, path, trace, k);
    RolloutSound(g, st, root, path, v);
    RolloutExpandsAtMostOne(g, st, path, v);
    if st.BoundedTotals() && RewardsInUnitInterval(g) {
      assert 0.0 <= g.reward(walk[k]) <= 1.0;
      FlipInUnitInterval(1.0 - g.reward(walk[k]), k);
      RolloutKeepsBoundedTotals(g, st, path, v);
    }
    if st.ConsistentWith(g) && Ranked(g, rank) {
      RolloutVisitsRankedRootOnce(g, st, root, path, v, rank);
    }
  }

  /** A walk without a terminal state means a trace without one. */
  lemma UnfinishedPlayout<S>(g: Game<S>, leaf: S, trace: seq<S>)
    requires forall j :: 0 <= j < |Walk(leaf, trace)| ==> !g.isTerminal(Walk(leaf, trace)[j])
    ensures !HasTerminal(g, trace)
  {
    forall j | 0 <= j < |trace|
      ensures !g.isTerminal(trace[j])
    {
      assert trace[j] == Walk(leaf, trace)[j + 1];
    }
  }

  /** The rest of a rollout once `path` is selected: expand its last state,
      play out from it along `trace` and backpropagate the playout's reward.
      It fails only when the trace holds no terminal state. */
  method PlayOut<S(==,!new)>(g: Game<S>, st: Stats<S>, root: S, path: seq<S>, trace: seq<S>, ghost rank: S -> nat)
    returns (r: Result<Stats<S>, RolloutError>)
    requires IsSelection(st, root, path) && st.VisitedKeys()
    ensures r.Ok? ==> IsRolloutOf(g, st, root, trace, r.value)
    ensures r.Ok? ==> r.value.VisitedKeys() && Grows(st, r.value)
    ensures r.Ok? ==> |r.value.children.Keys - st.children.Keys| <= 1
    ensures r.Ok? ==> r.value.Visits(root) >= st.Visits(root) + 1
    ensures r.Ok? && st.ConsistentWith(g) ==> r.value.ConsistentWith(g)
    ensures r.Ok? && st.BoundedTotals() && RewardsInUnitInterval(g) ==> r.value.BoundedTotals()
    ensures r.Ok? && st.ConsistentWith(g) && Ranked(g, rank) ==> r.value.Visits(root) == st.Visits(root) + 1
    ensures r.Err? ==> r.error == PlayoutUnfinished && !HasTerminal(g, trace)
    ensures r.Err? ==> !HasTerminal(g, Walk(path[|path| - 1], trace))
  {
    var leaf := path[|path| - 1];
    var playout := Simulate(g, leaf, trace);
    if playout.Unfinished? {
      UnfinishedPlayout(g, leaf, trace);
      assert !HasTerminal(g, Walk(leaf, trace));
      return Err(PlayoutUnfinished);
    }
    var st' := Update(g, st, path, playout.value);
    CompletedRollout(g, st, root, path, trace, playout.steps, st', rank);
    return Ok(st');
  }

  /** One training iteration: select a path, expand its last state, play
      out from it and backpropagate the playout's reward. A completed rollout
      is exactly that; it keeps every expanded state visited, only grows the
      statistics, expands at most one new state and visits the root at least
      once more, and exactly once more in a ranked game whose recorded
      children are the game's own. It fails only when the walk from the
      selected leaf along the trace reaches no terminal state (a terminal
      leaf ends the playout at once), or when the UCT rule applied at
      `fuel + 1` successive states; `evidence` is that selected path or that
      descent. */
  method Rollout<S(==,!new)>(g: Game<S>, st: Stats<S>, root: S, fuel: nat, trace: seq<S>, ghost rank: S -> nat)
    returns (r: Result<Stats<S>, RolloutError>, ghost evidence: seq<S>)
    requires st.VisitedKeys()
    ensures r.Ok? ==> IsRolloutOf(g, st, root, trace, r.value)
    ensures r.Ok? ==> r.value.VisitedKeys() && Grows(st, r.value)
    ensures r.Ok? ==> |r.value.children.Keys - st.children.Keys| <= 1
    ensures r.Ok? ==> r.value.Visits(root) >= st.Visits(root) + 1
    ensures r.Ok? && st.ConsistentWith(g) ==> r.value.ConsistentWith(g)
    ensures r.Ok? && st.BoundedTotals() && RewardsInUnitInterval(g) ==> r.value.BoundedTotals()
    ensures r.Ok? && st.ConsistentWith(g) && Ranked(g, rank) ==> r.value.Visits(root) == st.Visits(root) + 1
    ensures r == Err(PlayoutUnfinished) ==> !HasTerminal(g, trace)
    ensures r == Err(PlayoutUnfinished) ==> PlayoutCanFail(g, st, root, trace)
    ensures r == Err(SelectionUnfinished) ==> exists path :: |path| == fuel + 1 && IsDescent(st, root, path)
    ensures st.ConsistentWith(g) && Ranked(g, rank) && fuel > rank(root) ==> r != Err(SelectionUnfinished)
    ensures r.Err? ==> FailedFrom(g, st, root, fuel, trace, r.error, evidence)
  {
    var selected := Select(st, root, fuel);
    if selected.None? {
      ghost var descent :| |descent| == fuel + 1 && IsDescent(st, root, descent);
      DescentBoundedByRank(g, st, root, descent, rank);
      return Err(SelectionUnfinished), descent;
    }
    r := PlayOut(g, st, root, selected.value, trace, rank);
    evidence := selected.value;
  }

  /** `after` is what successive rollouts from `root`, one per trace in
      order, make of `st`. */
  ghost predicate IsRolloutsOf<S(!new)>(g: Game<S>, st: Stats<S>, root: S, traces: seq<seq<S>>, after: Stats<S>)
    decreases |traces|
  {
    if |traces| == 0 then after == st
    else
      var earlier, last := traces[..|traces| - 1], traces[|traces| - 1];
      exists mid :: IsRolloutsOf(g, st, root, earlier, mid) && IsRolloutOf(g, mid, root, last, after)
  }

  /** One more rollout extends a run of rollouts by its trace. */
  lemma RolloutsStep<S(!new)>(g: Game<S>, st: Stats<S>, root: S, traces: seq<seq<S>>, i: nat, current: Stats<S>, next: Stats<S>)
    requires i < |traces|
    requires IsRolloutsOf(g, st, root, traces[..i], current)
    requires IsRolloutOf(g, current, root, traces[i], next)
    ensures IsRolloutsOf(g, st, root, traces[..i + 1], next)
  {
    PrefixExtends(traces, i);
  }

  /** The prefix of length `i + 1` is the prefix of length `i` followed by element `i`. */
  lemma PrefixExtends<T>(s: seq<T>, i: nat)
    requires i < |s|
    ensures s[..i + 1][..i] == s[..i] && s[..i + 1][i] == s[i]
  {
  }

  /** Every rollout keeps every expanded state visited, only grows the
      statistics and visits the root at least once more, exactly once more
      in a ranked game whose recorded children are the game's own. */
  lemma RolloutOfSound<S(!new)>(g: Game<S>, st: Stats<S>, root: S, trace: seq<S>, after: Stats<S>, rank: S -> nat)
    requires IsRolloutOf(g, st, root, trace, after) && st.VisitedKeys()
    ensures after.VisitedKeys() && Grows(st, after)
    ensures after.Visits(root) >= st.Visits(root) + 1
    ensures st.ConsistentWith(g) ==> after.ConsistentWith(g)
    ensures st.ConsistentWith(g) && Ranked(g, rank) ==> after.Visits(root) == st.Visits(root) + 1
  {
    var path: seq<S>, k: nat :| && IsSelection(st, root, path)
                                 && FirstTerminalAt(g, Walk(path[|path| - 1], trace), k)
                                 && after == PlayoutUpdate(g, st, path, trace, k);
    CompletedRollout(g, st, root, path, trace, k, after, rank);
  }

  /** A run of `k` rollouts keeps every expanded state visited, only grows
      the statistics and gives the root at least `k` more visits, exactly `k`
      in a ranked game whose recorded children are the game's own. */
  lemma {:induction false} RolloutsSound<S(!new)>(g: Game<S>, st: Stats<S>, root: S, traces: seq<seq<S>>, after: Stats<S>, rank: S -> nat)
    requires IsRolloutsOf(g, st, root, traces, after) && st.VisitedKeys()
    ensures after.VisitedKeys() && Grows(st, after)
    ensures after.Visits(root) >= st.Visits(root) + |traces|
    ensures st.ConsistentWith(g) ==> after.ConsistentWith(g)
    ensures st.ConsistentWith(g) && Ranked(g, rank) ==> after.Visits(root) == st.Visits(root) + |traces|
    decreases |traces|
  {
    if |traces| > 0 {
      var earlier, last := traces[..|traces| - 1], traces[|traces| - 1];
      var mid :| IsRolloutsOf(g, st, root, earlier, mid) && IsRolloutOf(g, mid, root, last, after);
      RolloutsSound(g, st, root, earlier, mid, rank);
      RolloutOfSound(g, mid, root, last, after, rank);
      GrowsTransitive(st, mid, after);
    }
  }

  /** `evidence` shows why a rollout from `root` along `trace` ended with
      error `e`: a selected path whose walk along `trace` reaches no terminal
      state, or a descent of `fuel + 1` states. */
  ghost predicate FailedFrom<S(!new)>(g: Game<S>, st: Stats<S>, root: S, fuel: nat, trace: seq<S>, e: RolloutError, evidence: seq<S>) {
    match e
    case PlayoutUnfinished =>
      && !HasTerminal(g, trace) && IsSelection(st, root, evidence)
      && !HasTerminal(g, Walk(evidence[|evidence| - 1], trace))
    case SelectionUnfinished => |evidence| == fuel + 1 && IsDescent(st, root, evidence)
  }

  /** Iteration `i` of the training loop: the rollout along `traces[i]`
      from the statistics the first `i` rollouts reached. A completed one
      extends the run; a failed one comes with the selected path the playout
      failed from, or the descent that used up the budget. */
  method NextRollout<S(==,!new)>(g: Game<S>, st: Stats<S>, root: S, fuel: nat, traces: seq<seq<S>>, i: nat, current: Stats<S>, ghost rank: S -> nat)
    returns (step: Result<Stats<S>, RolloutError>, ghost evidence: seq<S>)
    requires i < |traces| && current.VisitedKeys()
    requires IsRolloutsOf(g, st, root, traces[..i], current)
    ensures step.Ok? ==> step.value.VisitedKeys() && IsRolloutsOf(g, st, root, traces[..i + 1], step.value)
    ensures step.Err? ==> FailedFrom(g, current, root, fuel, traces[i], step.error, evidence)
  {
    step, evidence := Rollout(g, current, root, fuel, traces[i], rank);
    if step.Ok? {
      RolloutsStep(g, st, root, traces, i, current, step.value);
    }
  }

  /** The training loop: one rollout per trace, in order, stopping at the
      first that fails. It reports how many rollouts completed and the
      statistics they reached: all of them on success. A failure also comes
      with the selected path the playout failed from, or the descent that
      used up the budget. */
  method RunRollouts<S(==,!new)>(g: Game<S>, st: Stats<S>, root: S, fuel: nat, traces: seq<seq<S>>, ghost rank: S -> nat)
    returns (r: Result<Stats<S>, RolloutError>, ghost failed: nat, ghost reached: Stats<S>, ghost evidence: seq<S>)
    requires st.VisitedKeys()
    ensures failed <= |traces| && IsRolloutsOf(g, st, root, traces[..failed], reached)
    ensures r.Ok? ==> failed == |traces| && r.value == reached
    ensures r.Ok? ==> r.value.VisitedKeys()
    ensures r.Err? ==> failed < |traces| && FailedFrom(g, reached, root, fuel, traces[failed], r.error, evidence)
  {
    var current := st;
    var i := 0;
    while i < |traces|
      invariant 0 <= i <= |traces|
      invariant current.VisitedKeys()
      invariant IsRolloutsOf(g, st, root, traces[..i], current)
    {
      var step, path := NextRollout(g, st, root, fuel, traces, i, current, rank);
      if step.Err? {
        return Err(step.error), i, current, path;
      }
      current := step.value;
      i := i + 1;
    }
    return Ok(current), i, current, [];
  }

  /** Repeated training: one rollout per playout trace, stopping at the first
      unfinished one. A completed run is exactly one rollout per trace, in
      order. After `k` completed rollouts the root has gained at least `k`
      visits, and exactly `k` in a game whose moves descend a rank and whose
      recorded children are the game's own. In such a game, with every trace
      reaching a terminal state and a descent budget above the root's rank,
      every rollout completes. A failure is that of rollout number `failed`,
      the first to fail: the ones before it completed and reached `reached`,
      and `evidence` is the path selected from `reached` whose walk along
      `traces[failed]` holds no terminal state, or the descent from `reached`
      that used up the budget. */
  method Train<S(==,!new)>(g: Game<S>, st: Stats<S>, root: S, fuel: nat, traces: seq<seq<S>>, ghost rank: S -> nat)
    returns (r: Result<Stats<S>, RolloutError>, ghost failed: nat, ghost reached: Stats<S>, ghost evidence: seq<S>)
    requires st.VisitedKeys()
    ensures r.Ok? ==> IsRolloutsOf(g, st, root, traces, r.value)
    ensures r.Ok? ==> r.value.VisitedKeys() && Grows(st, r.value)
    ensures r.Ok? ==> r.value.Visits(root) >= st.Visits(root) + |traces|
    ensures r.Ok? && st.ConsistentWith(g) && Ranked(g, rank) ==> r.value.Visits(root) == st.Visits(root) + |traces|
    ensures r == Err(PlayoutUnfinished) ==> exists i :: 0 <= i < |traces| && !HasTerminal(g, traces[i])
    ensures r.Err? ==> failed < |traces| && IsRolloutsOf(g, st, root, traces[..failed], reached)
    ensures r == Err(PlayoutUnfinished) ==>
              && failed < |traces| && IsSelection(reached, root, evidence)
              && !HasTerminal(g, Walk(evidence[|evidence| - 1], traces[failed]))
    ensures r == Err(SelectionUnfinished) ==> |evidence| == fuel + 1 && IsDescent(reached, root, evidence)
    ensures st.ConsistentWith(g) && Ranked(g, rank) && fuel > rank(root) ==> r != Err(SelectionUnfinished)
    ensures && st.ConsistentWith(g) && Ranked(g, rank) && fuel > rank(root)
            && (forall i :: 0 <= i < |traces| ==> HasTerminal(g, traces[i]))
            ==> r.Ok?
  {
    r, failed, reached, evidence := RunRollouts(g, st, root, fuel, traces, rank);
    if r.Ok? {
      assert traces[..failed] == traces;
      RolloutsSound(g, st, root, traces, r.value, rank);
    } else {
      RolloutsSound(g, st, root, traces[..failed], reached, rank);
      if r.error == SelectionUnfinished {
        DescentBoundedByRank(g, reached, root, evidence, rank);
      }
    }
  }
}

=== FILE: node.dfy ===
/** The capability contract a game state offers to the search engine: the
    abstract methods of the `Node` class. Equality and hashing of states are
    Dafny equality on the state type. */
module Node {

  /** The four game oracles. `findRandomChild` and `reward` are only
      meaningful on non-terminal and terminal states respectively; the engine
      never relies on them elsewhere. */
  datatype Game<!S> = Game(
    findChildren: S -> set<S>,
    findRandomChild: S -> S,
    isTerminal: S -> bool,
    reward: S -> real)

  /** Every terminal outcome is a score in [0,1] (1 = win, 0 = loss, 0.5 = tie). */
  ghost predicate RewardsInUnitInterval<S(!new)>(g: Game<S>) {
    forall s :: g.isTerminal(s) ==> 0.0 <= g.reward(s) <= 1.0
  }

  /** `rank` strictly decreases along every move. Such a natural-number rank
      exists exactly when no play from any state goes on forever: the game
      has no cycles and no endless acyclic play either. */
  ghost predicate Ranked<S(!new)>(g: Game<S>, rank: S -> nat) {
    forall s, c :: c in g.findChildren(s) ==> rank(c) < rank(s)
  }
}

=== FILE: reward.dfy ===
/** Reward arithmetic of a two-player zero-sum game: a reward of `r` for one
    player is a reward of `1 - r` for the other. */
module Reward {

  /** The reward `r` seen from `k` plies away: unchanged after an even number
      of alternations, flipped to `1 - r` after an odd number. */
  function Flip(r: real, k: nat): (flipped: real) {
    if k % 2 == 0 then r else 1.0 - r
  }

  /** Adjacent plies see rewards that sum to one. */
  lemma FlipAlternates(r: real, k: nat)
    ensures Flip(r, k) + Flip(r, k + 1) == 1.0
    ensures Flip(1.0 - r, k) == Flip(r, k + 1)
  {
  }

  /** Flipping keeps a reward inside [0,1]. */
  lemma FlipInUnitInterval(r: real, k: nat)
    requires 0.0 <= r <= 1.0
    ensures 0.0 <= Flip(r, k) <= 1.0
  {
  }

  /** Reference definition of the reward credited to `x` when `r` is credited
      to the last element of `path` and flipped once per step towards the
      first: position `i` receives `Flip(r, |path| - 1 - i)`. It walks the path
      from the first element, the opposite direction of backpropagation. */
  function Credit<S(==)>(path: seq<S>, r: real, x: S): (credit: real)
    decreases |path|
  {
    if |path| == 0 then 0.0
    else (if path[0] == x then Flip(r, |path| - 1) else 0.0) + Credit(path[1..], r, x)
  }

  /** Peeling the last element: it receives `r` itself, and the rest of the
      path is credited as if the leaf's predecessor had received `1 - r`. */
  lemma {:induction false} CreditLast<S>(path: seq<S>, r: real, x: S)
    requires |path| > 0
    ensures Credit(path, r, x)
            == Credit(path[..|path| - 1], 1.0 - r, x) + (if path[|path| - 1] == x then r else 0.0)
    decreases |path|
  {
    if |path| > 1 {
      var tail := path[1..];
      CreditLast(tail, r, x);
      assert tail[..|tail| - 1] == path[..|path| - 1][1..];
      FlipAlternates(r, |path| - 2);
    }
  }

  /** An element absent from the path receives nothing. */
  lemma {:induction false} CreditAbsent<S>(path: seq<S>, r: real, x: S)
    requires x !in path
    ensures Credit(path, r, x) == 0.0
    decreases |path|
  {
    if |path| > 0 {
      CreditAbsent(path[1..], r, x);
    }
  }

  /** An element occurring once, at position `i`, receives exactly its ply's share. */
  lemma {:induction false} CreditAtUniquePosition<S>(path: seq<S>, r: real, i: nat)
    requires i < |path|
    requires multiset(path)[path[i]] == 1
    ensures Credit(path, r, path[i]) == Flip(r, |path| - 1 - i)
    decreases |path|
  {
    assert path == [path[0]] + path[1..];
    if i == 0 {
      assert multiset(path) == multiset{path[0]} + multiset(path[1..]);
      assert path[0] !in path[1..];
      CreditAbsent(path[1..], r, path[0]);
    } else {
      assert multiset(path) == multiset{path[0]} + multiset(path[1..]);
      assert path[1..][i - 1] == path[i];
      assert path[0] != path[i];
      CreditAtUniquePosition(path[1..], r, i - 1);
    }
  }

  /** With `r` in [0,1], an element is credited between 0 and the number of
      times it occurs on the path. */
  lemma {:induction false} CreditBounds<S>(path: seq<S>, r: real, x: S)
    requires 0.0 <= r <= 1.0
    ensures 0.0 <= Credit(path, r, x) <= multiset(path)[x] as real
    decreases |path|
  {
    if |path| > 0 {
      CreditBounds(path[1..], r, x);
      FlipInUnitInterval(r, |path| - 1);
      assert path == [path[0]] + path[1..];
      assert multiset(path) == multiset{path[0]} + multiset(path[1..]);
    }
  }
}

=== FILE: stats.dfy ===
/** The engine's per-state statistics: total reward `q`, visit count `n`
    and the recorded children of every expanded state. `q` and `n` read as 0
    for a state without an entry, as a default-zero dictionary does. */
module Stats {
  import opened Node

  datatype Stats<S> = Stats(q: map<S, real>, n: map<S, nat>, children: map<S, set<S>>) {

    /** Total reward recorded for `s` (0 when never credited). */
    function Total(s: S): (total: real) {
      if s in q then q[s] else 0.0
    }

    /** Visit count of `s` (0 when never visited). */
    function Visits(s: S): (visits: nat) {
      if s in n then n[s] else 0
    }

    /** Every expanded state has been visited, so the divisions and the
        logarithm of the UCT rule are defined on it. */
    ghost predicate VisitedKeys() {
      forall s :: s in children ==> Visits(s) >= 1
    }

    /** Every recorded child set is the one the game enumerates. */
    ghost predicate ConsistentWith(g: Game<S>) {
      forall s :: s in children ==> children[s] == g.findChildren(s)
    }

    /** No state has been credited more than once per visit: its mean reward
        lies in [0,1]. */
    ghost predicate BoundedTotals() {
      forall s :: s in q ==> 0.0 <= q[s] <= Visits(s) as real
    }
  }

  /** The statistics of a newly constructed engine: nothing expanded, nothing
      visited. */
  function Empty<S>(): (st: Stats<S>)
    ensures st.VisitedKeys() && st.BoundedTotals()
    ensures |st.q| == 0 && |st.n| == 0 && |st.children| == 0
  {
    Stats(map[], map[], map[])
  }

  /** `after` extends `before`: recorded child sets never change once written
      and visit counts never decrease. */
  ghost predicate Grows<S>(before: Stats<S>, after: Stats<S>) {
    && (forall s :: s in before.children ==> s in after.children && after.children[s] == before.children[s])
    && (forall s :: s in before.n ==> before.n[s] <= after.Visits(s))
  }

  /** Growth composes. */
  lemma GrowsTransitive<S>(a: Stats<S>, b: Stats<S>, c: Stats<S>)
    requires Grows(a, b) && Grows(b, c)
    ensures Grows(a, c)
  {
    forall s | s in a.n
      ensures a.n[s] <= c.Visits(s)
    {
      assert a.n[s] <= b.Visits(s);
    }
  }
}

=== FILE: wrappers.dfy ===
/** Failure-carrying results used by the search engine. */
module Wrappers {

  /** A value that may be absent. */
  datatype Option<+T> = None | Some(value: T)

  /** Either a value or the error that prevented computing it. */
  datatype Result<+T, +E> = Ok(value: T) | Err(error: E)
}
